=== FILE: README.md ===
# getaddrinfo with a timeout — a Dafny model

`getaddrinfo_with_timeout` puts a deadline on the blocking, non-cancellable
`getaddrinfo`. The caller (the coordinator) starts a worker thread and
appends a `DnsItem` for it to the process-wide registry `sg_dnsitem_vec`,
then waits on a shared condition variable and recomputes the remaining wait to a fixed
deadline on every wake-up. The worker marks its item `kGetADDRDoing`,
calls the resolver without holding the lock, and then records
`kGetADDRSuc` or `kGetADDRFail` and notifies everyone. The coordinator
inspects only its own item. It returns 0 on success, the resolver's error
verbatim on failure, and -885 (with `_is_timeout` set) when the wait timed
out. It returns -887 on a parameter mismatch and -886 when its item is
missing or in an unexpected state.

Every piece of logic runs with `sg_mutex` held, so each locked region is
modelled as one atomic, pure step from one registry (`seq<DnsItem>`) to
the next:

- `dns_item.dfy` (module `DnsItems`): the status and return-code enums, the
  record, and `EqualParameter`. Pointers are opaque integers and 0 is NULL.
- `registry.dfy` (module `Registry`): the linear search by thread id, erase,
  a reference "remove the first match" definition, and the registry
  invariant `Valid`. `Valid` says thread ids are distinct, no item is
  `Timeout` between regions, and a failed item has a non-zero error.
- `timing.dfy` (module `Timing`): the 64-bit deadline and the guarded
  remaining-wait subtraction. The clock reading is a parameter.
- `worker.dfy` (module `Worker`): the worker's two locked regions. The
  resolver's outcome is an input error code.
- `coordinator.dfy` (module `Coordinator`): thread start and registration,
  and one wake-up of the wait loop. The wait's outcome is an input flag that
  is true when it reported `ETIMEDOUT`.
- `wait_loop.dfy` (module `WaitLoop`): the `while (true)` loop, driven by one
  observation per wake-up. It also holds the whole entry point: start,
  deadline, then the loop.
- `invariants.dfy` (module `Invariants`): every step keeps `Valid`. It also
  proves when a wake-up succeeds or sets the timeout flag. And it proves that
  another worker with a different thread id finishing never changes what a
  coordinator's wake-up returns.
- `scenarios.dfy` (module `Scenarios`): whole requests composed from the
  steps. These cover success, failure, a spurious wake-up, a timeout with a
  late worker, a timeout racing a finished worker, a wake-up or a timeout
  before the worker begins, a reused thread id, and a failed thread start.

Where the code behaves differently from what its structure suggests, the
model follows the code (line numbers refer to
`mars/comm/network/getaddrinfo_with_timeout.cc`):

- On a timed-out wait (line 178) the status becomes `kGetADDRTimeout`
  unconditionally, not only when the item is still running. A worker that
  has already recorded success therefore loses to the timeout
  (`Scenarios.TimeoutOverridesSuccess`). A recorded failure loses as well:
  the call returns -885, not the resolver's error.
- Between locked regions no item is ever `kGetADDRTimeout`: the region that
  writes that status also erases the item (`Invariants.WakePreservesValid`).
  So a late success never meets a timed-out item, although the log message at
  line 122 expects one. It finds its item gone and is dropped
  (`Scenarios.TimeoutThenLateResult`).
- A wake-up that sees `kGetADDRNotBegin` falls through line 212. It erases
  the item and returns -886. This happens without any timeout when another
  request's worker notifies everyone (lines 116 and 126) before this
  request's worker has taken the lock (`Scenarios.UnrelatedSignalBeforeBegin`).
- A failed thread start returns `false`, which is the integer 0, the same
  value as success.

## Model

| member | source | states |
|---|---|---|
| DnsItems.RetCodeValue | mars/comm/network/getaddrinfo_with_timeout.cc:29-34 | the wrapper's return codes lie in -888..-885, so none of them is the success code 0 |
| DnsItems.RetCodesConsecutive | mars/comm/network/getaddrinfo_with_timeout.cc:29-34 | the four codes are distinct and consecutive from -888 (internal state error) to -885 (timeout) |
| DnsItems.NewItem | mars/comm/network/getaddrinfo_with_timeout.cc:47 | a new item carries the given thread id and parameters, error code 0 and status `NotBegin` |
| DnsItems.EqualParameter | mars/comm/network/getaddrinfo_with_timeout.cc:49-54 | two items match exactly when they are the same record apart from thread id, error code and status, i.e. their four pointers are identical |
| Registry.Find | mars/comm/network/getaddrinfo_with_timeout.cc:166-171 | the search returns the first item with the thread id, or the end position when there is none |
| Registry.FindIsFirstMatch | mars/comm/network/getaddrinfo_with_timeout.cc:104-109 | an index is the first match exactly when it is the position the search reports |
| Registry.FindAbsent | mars/comm/network/getaddrinfo_with_timeout.cc:85-88 | the search reaches the end exactly when no item carries the thread id |
| Registry.FindUnique | mars/comm/network/getaddrinfo_with_timeout.cc:166-171 | with distinct thread ids, the search for an item's id finds that item |
| Registry.FindSameTids | mars/comm/network/getaddrinfo_with_timeout.cc:166-171 | the search depends only on the thread ids, so status and error updates never move it |
| Registry.Erase | mars/comm/network/getaddrinfo_with_timeout.cc:202 | erase removes exactly one item, keeps the others in order and preserves the multiset of the rest |
| Registry.EraseFoundIsRemoveFirst | mars/comm/network/getaddrinfo_with_timeout.cc:166-187 | erasing at the found position is the same as removing the first item with that thread id |
| Registry.RemoveFirstAbsent | mars/comm/network/getaddrinfo_with_timeout.cc:166-175 | removing an absent thread id leaves the registry unchanged |
| Registry.ErasePreservesValid | mars/comm/network/getaddrinfo_with_timeout.cc:208 | erasing keeps the registry invariant and removes exactly that item's thread id |
| Timing.Deadline | mars/comm/network/getaddrinfo_with_timeout.cc:158 | the deadline is `now + timeout` when that fits in 64 bits, and otherwise that sum minus 2^64 |
| Timing.RemainingWait | mars/comm/network/getaddrinfo_with_timeout.cc:161-162 | the wait is `end - cur` when the deadline is ahead, so `cur + wait == end`, and 0 otherwise; it never underflows and fits in 64 bits |
| Timing.RemainingWaitShrinks | mars/comm/network/getaddrinfo_with_timeout.cc:160-164 | a later clock reading never gives a longer wait; before the deadline the wait drops by exactly the elapsed time, and after it the wait is 0 |
| Timing.FirstWaitIsTimeout | mars/comm/network/getaddrinfo_with_timeout.cc:158-162 | without wrap-around, the first wait is the whole timeout |
| Timing.WrappedDeadlineWaitsZero | mars/comm/network/getaddrinfo_with_timeout.cc:158-162 | a timeout that wraps the 64-bit deadline gives a deadline before `now`, so every wait is 0 |
| Worker.Begin | mars/comm/network/getaddrinfo_with_timeout.cc:79-96 | the first item with the worker's id becomes `Doing` and its parameters are returned; every other item is unchanged; with no such item the registry is unchanged and the parameters are all NULL |
| Worker.End | mars/comm/network/getaddrinfo_with_timeout.cc:102-127 | an error marks the first matching item `Fail` with that error code; success marks it `Suc` only if it was `Doing` and otherwise leaves the registry alone; an absent item leaves the registry alone; no other item changes |
| Worker.BeginPreservesValid | mars/comm/network/getaddrinfo_with_timeout.cc:84-96 | the worker's first region keeps the registry invariant and the set of thread ids |
| Worker.EndPreservesValid | mars/comm/network/getaddrinfo_with_timeout.cc:104-127 | the worker's second region keeps the registry invariant and the set of thread ids |
| Coordinator.Register | mars/comm/network/getaddrinfo_with_timeout.cc:148-155 | registration appends one `NotBegin` item with the caller's parameters, leaves the existing items untouched and adds exactly the new thread id |
| Coordinator.Start | mars/comm/network/getaddrinfo_with_timeout.cc:140-155 | a failed thread start registers nothing and returns 0; otherwise the request is appended at the end and the coordinator keeps a copy of the item |
| Coordinator.Wake | mars/comm/network/getaddrinfo_with_timeout.cc:164-217 | for each case, which item is erased and which code is returned. Missing item: -886 with nothing changed. Timed-out wait: -885, flag set, own item erased. `Doing`: continue, nothing changed. `Suc` with equal parameters: 0 and erase. `Suc` with other parameters: -887, nothing changed. `Fail`: the stored error and erase. `NotBegin`: -886 and erase. The flag is set only with -885 |
| WaitLoop.Run | mars/comm/network/getaddrinfo_with_timeout.cc:160-218 | the loop recomputes the wait before every wake-up and continues through every wake-up that does not return. It returns exactly what the first returning wake-up returns, and with a monotone clock the waits never grow |
| WaitLoop.GetAddrInfoWithTimeout | mars/comm/network/getaddrinfo_with_timeout.cc:133-218 | a failed start returns 0 with nothing registered and no wait. Otherwise every recorded wait is the remaining time to the 64-bit deadline `now + timeout`, and the call returns what the last observed wake-up of its own item returned. Without wrap-around, a first clock reading equal to `now` gives a first wait of the whole timeout |
| Invariants.RemoveFirstPreservesValid | mars/comm/network/getaddrinfo_with_timeout.cc:200-215 | removing the coordinator's item keeps the registry invariant and removes exactly that thread id |
| Invariants.RegisterPreservesValid | mars/comm/network/getaddrinfo_with_timeout.cc:148-155 | registration under a fresh thread id keeps thread ids distinct and the registry valid |
| Invariants.WakePreservesValid | mars/comm/network/getaddrinfo_with_timeout.cc:175-217 | a wake-up keeps the registry invariant, so no `Timeout` item survives the region that wrote it |
| Invariants.WakeSucceedsIff | mars/comm/network/getaddrinfo_with_timeout.cc:177-188 | on a valid registry, a wake-up returns 0 exactly when the own item is present, the wait did not time out, the status is `Suc` and the parameters are equal |
| Invariants.WakeSetsTimeoutIff | mars/comm/network/getaddrinfo_with_timeout.cc:177-204 | on a valid registry, the timeout flag is set exactly when the wait timed out while the own item was registered |
| Invariants.OtherWorkerDoesNotAffectWake | mars/comm/network/getaddrinfo_with_timeout.cc:104-127 | the second region of a worker with a different thread id never changes what this coordinator's wake-up returns or whether it sets the timeout flag |
| Scenarios.RegisteredIsLast | mars/comm/network/getaddrinfo_with_timeout.cc:148-155 | a freshly registered item is the first match for its thread id |
| Scenarios.RemoveLastMatch | mars/comm/network/getaddrinfo_with_timeout.cc:187 | erasing the last item, when it is the first match, gives back the registry before registration |
| Scenarios.ResolvedBeforeTimeout | mars/comm/network/getaddrinfo_with_timeout.cc:84-209 | the worker receives the caller's parameters. A resolution that finishes before the timeout returns 0 on success or the resolver's error verbatim, does not set the flag, and leaves the registry as it was before the call |
| Scenarios.WakeWhileRunning | mars/comm/network/getaddrinfo_with_timeout.cc:181-183 | a wake-up while the worker is resolving changes nothing and the loop continues |
| Scenarios.TimeoutThenLateResult | mars/comm/network/getaddrinfo_with_timeout.cc:104-204 | a timeout during resolution returns -885, sets the flag and restores the registry; the worker's late result, success or failure, then changes nothing |
| Scenarios.TimeoutOverridesSuccess | mars/comm/network/getaddrinfo_with_timeout.cc:177-178 | a timed-out wait after the worker recorded success still returns -885 with the flag set |
| Scenarios.WakeBeforeWorkerBegins | mars/comm/network/getaddrinfo_with_timeout.cc:212-217 | a wake-up that finds `NotBegin` erases the item and returns -886 |
| Scenarios.ReusedThreadIdTakesFirstItem | mars/comm/network/getaddrinfo_with_timeout.cc:84-209 | when a registered item already carries the new thread id, that older item stays the first match and the new worker takes its parameters. A wake-up of the new coordinator without a timeout, before the new worker's first region, acts on the older item's status. A stale `Fail` is erased and its error returned. A stale `Suc` with equal pointers is erased and 0 returned. A stale `Suc` with other pointers returns -887 with nothing changed. After that first region the older item is `Doing` and the wake-up continues |
| Scenarios.EarlyTimeoutLeavesWorkerNothing | mars/comm/network/getaddrinfo_with_timeout.cc:84-204 | a first wait that times out before the worker's first region returns -885 and erases the item. The worker then finds nothing, leaves the registry alone and gets four NULL parameters |
| Scenarios.UnrelatedSignalBeforeBegin | mars/comm/network/getaddrinfo_with_timeout.cc:116-217 | when another request's worker finishes after this request registered but before this request's worker began, this coordinator's wake-up without a timeout returns -886 |
| Scenarios.StartFailureLooksLikeSuccess | mars/comm/network/getaddrinfo_with_timeout.cc:143-146 | a failed thread start returns the same integer as a successful resolution |

## Left out

- The resolver call `getaddrinfo`, the `addrinfo` contents and their ownership are foreign behaviour. The resolver's outcome enters as an error code. The result leaked when success arrives after a timeout is therefore not modelled.
- Thread creation, `Mutex`/`ScopedLock` and `Condition::wait`/`notifyAll` are concurrency machinery. Each locked region is one atomic step, and the thread-start result, the new thread's id and the wait's `ETIMEDOUT` outcome are inputs. Real interleavings and wall-clock timing are not modelled.
- `gettickcount` is an external clock, so the current time is a parameter.
- The `(long)` conversion of the wait passed to `Condition::wait` is not modelled. It alters every wait that does not fit in the platform's `long`: 2^31 ms (about 24.8 days) or more where `long` is 32 bits, as on the Windows build, and 2^63 ms or more where it is 64 bits.
- `ToString`, `xinfo2`, `xerror2`, `xassert2` and the platform `#include` switches are logging and diagnostics. They do not affect results. Debug builds abort on the asserted branches, but the model follows the release behaviour.
- Thread ids are assumed fresh when a request registers. Registration does not check this, and a reused id that is still registered is modelled only by `Scenarios.ReusedThreadIdTakesFirstItem`. Such an id can remain in two cases. A finished request's `Suc` or `Fail` item stays until its coordinator's next locked region. After a parameter mismatch, which erases nothing, the item stays for good. If the new coordinator wakes without a timeout before the new worker's first region, it acts on the older item's status. A stale `Fail` delivers the old error, and a stale `Suc` with equal pointers returns 0 before its own worker has run. Once the new worker's first region has marked the older item `Doing`, the outcome depends on resolving the older item's parameters. Every `Valid` and scenario lemma that involves registration requires the new id to be absent.
- WaitLoop.Run: is driven by a finite sequence of observations and reports that it is still waiting when they run out. The source loops until some wake-up returns.

=== FILE: coordinator.dfy ===
/**
 * The caller-facing entry point. It starts the worker thread and registers
 * the request while holding the lock, then loops: wait on the condition
 * (which releases the lock), re-acquire it, and inspect its own item. Each
 * wake-up is one locked region and is modelled as one step; the wait's
 * outcome enters as a flag saying whether it reported `ETIMEDOUT`.
 */
module Coordinator {
  import opened DnsItems
  import opened Registry

  /** The code returned on success; `return false` yields the same integer. */
  const Success: int := 0

  /** Append a new `NotBegin` item for thread `tid` carrying the caller's parameters. */
  function Register(reg: seq<DnsItem>, tid: Tid, p: Params): (r: seq<DnsItem>)
    ensures |r| == |reg| + 1
    ensures r[..|reg|] == reg
    ensures r[|reg|] == NewItem(tid, p)
    ensures Tids(r) == Tids(reg) + {tid}
  {
    var r := reg + [NewItem(tid, p)];
    assert forall t :: t in Tids(r) ==> t in Tids(reg) + {tid} by {
      forall t | t in Tids(r) ensures t in Tids(reg) + {tid} {
        var j :| 0 <= j < |r| && r[j].threadid == t;
        if j < |reg| { assert reg[j].threadid == t; }
      }
    }
    assert r[|reg|].threadid in Tids(r);
    assert forall j :: 0 <= j < |reg| ==> reg[j].threadid == r[j].threadid;
    r
  }

  /** The outcome of starting the worker and registering the request. */
  datatype StartResult =
    | StartFailed(code: int)
    | Started(reg: seq<DnsItem>, item: DnsItem)

  /**
   * Start the worker thread; on a non-zero start result return `false`,
   * which converts to the integer 0 and registers nothing. Otherwise
   * register the item under the new thread's id and keep a local copy of it.
   */
  function Start(reg: seq<DnsItem>, startRet: int, tid: Tid, p: Params): (r: StartResult)
    ensures startRet != 0 <==> r.StartFailed?
    ensures r.StartFailed? ==> r.code == Success
    ensures r.Started? ==> r.item == NewItem(tid, p) && r.reg == reg + [r.item]
  {
    if startRet != 0 then StartFailed(0)
    else Started(Register(reg, tid, p), NewItem(tid, p))
  }

  /** Either go round the wait loop again or return a code to the caller. */
  datatype Outcome = Continue | Return(code: int)

  /**
   * The result of one wake-up: the registry after it, the outcome, and
   * whether it assigned `true` to the caller's timeout flag.
   */
  datatype WakeResult = WakeResult(reg: seq<DnsItem>, outcome: Outcome, setsTimeout: bool)

  /**
   * One wake-up of the coordinator whose local item is `me`. A timed-out
   * wait overwrites the item's status with `Timeout` whatever it was, and
   * a status that none of the cases expects (`NotBegin`) erases the item
   * and reports it as not found.
   */
  function Wake(reg: seq<DnsItem>, me: DnsItem, timedOut: bool): (r: WakeResult)
    // Own item missing: nothing changes.
    ensures me.threadid !in Tids(reg) ==>
      r == WakeResult(reg, Return(RetCodeValue(DnsItemNotFound)), false)
    // Timed-out wait: the own item is erased and the timeout code returned.
    ensures me.threadid in Tids(reg) && timedOut ==>
      r == WakeResult(RemoveFirst(reg, me.threadid), Return(RetCodeValue(GetAddrTimeout)), true)
    ensures forall j :: FirstMatch(reg, j, me.threadid) && !timedOut ==>
      && (reg[j].status == Doing ==> r == WakeResult(reg, Continue, false))
      && (reg[j].status == Suc && EqualParameter(reg[j], me) ==>
            r == WakeResult(RemoveFirst(reg, me.threadid), Return(Success), false))
      && (reg[j].status == Suc && !EqualParameter(reg[j], me) ==>
            r == WakeResult(reg, Return(RetCodeValue(ParamNotMatch)), false))
      && (reg[j].status == Timeout ==>
            r == WakeResult(RemoveFirst(reg, me.threadid), Return(RetCodeValue(GetAddrTimeout)), true))
      && (reg[j].status == Fail ==>
            r == WakeResult(RemoveFirst(reg, me.threadid), Return(reg[j].errorCode), false))
      && (reg[j].status == NotBegin ==>
            r == WakeResult(RemoveFirst(reg, me.threadid), Return(RetCodeValue(DnsItemNotFound)), false))
    // The timeout flag is only ever set together with the timeout code.
    ensures r.setsTimeout ==> r.outcome == Return(RetCodeValue(GetAddrTimeout))
    // Only a continued loop or a parameter mismatch keeps the item.
    ensures r.reg == reg || r.reg == RemoveFirst(reg, me.threadid)
  {
    FindAbsent(reg, me.threadid);
    var i := Find(reg, me.threadid);
    if i == |reg| then
      RemoveFirstAbsent(reg, me.threadid);
      WakeResult(reg, Return(RetCodeValue(DnsItemNotFound)), false)
    else
      EraseFoundIsRemoveFirst(reg, me.threadid);
      // The status after the optional overwrite. The overwritten item is
      // either erased below or, when the status is not `Timeout`, was never
      // overwritten, so the erasing branches can erase from `reg` itself.
      var status := if timedOut then Timeout else reg[i].status;
      match status
      case Doing => WakeResult(reg, Continue, false)
      case Suc =>
        if EqualParameter(reg[i], me) then WakeResult(Erase(reg, i), Return(Success), false)
        else WakeResult(reg, Return(RetCodeValue(ParamNotMatch)), false)
      case Timeout => WakeResult(Erase(reg, i), Return(RetCodeValue(GetAddrTimeout)), true)
      case Fail => WakeResult(Erase(reg, i), Return(reg[i].errorCode), false)
      case NotBegin => WakeResult(Erase(reg, i), Return(RetCodeValue(DnsItemNotFound)), false)
  }
}

=== FILE: dns_item.dfy ===
/**
 * The record kept for one in-flight resolution (`DnsItem`), its status
 * enumeration, the return codes of the wrapper, and the parameter identity
 * check `EqualParameter`.
 *
 * The four resolver parameters are C pointers that this code never
 * dereferences: it copies them and compares them by address. They are
 * modelled as opaque integers, with 0 standing for NULL.
 */
module DnsItems {

  /** A thread identifier (`thread_tid`); only compared for equality. */
  type Tid = int

  /** A pointer, compared by identity only. */
  type Ptr = int

  /** The NULL pointer. */
  const Null: Ptr := 0

  /** Status of a request, in the order of the source's anonymous enum. */
  datatype Status = NotBegin | Doing | Timeout | Suc | Fail

  /** The wrapper's own negative return codes, in declaration order. */
  datatype RetCode = InternalStateError | ParamNotMatch | DnsItemNotFound | GetAddrTimeout

  /** Position of a return code in its declaration. */
  function Ordinal(c: RetCode): nat
  {
    match c
    case InternalStateError => 0
    case ParamNotMatch => 1
    case DnsItemNotFound => 2
    case GetAddrTimeout => 3
  }

  /**
   * The integer value of a return code: the first enumerator is set to -888
   * and every later one is its predecessor plus one, as C assigns
   * enumerators. All four are negative, so none is the success code 0.
   */
  function RetCodeValue(c: RetCode): (v: int)
    ensures -888 <= v <= -885
  {
    -888 + Ordinal(c)
  }

  /** The four codes are distinct and consecutive in declaration order. */
  lemma RetCodesConsecutive(c: RetCode, d: RetCode)
    ensures RetCodeValue(c) == RetCodeValue(d) ==> c == d
    ensures Ordinal(d) == Ordinal(c) + 1 ==> RetCodeValue(d) == RetCodeValue(c) + 1
    ensures RetCodeValue(InternalStateError) == -888 && RetCodeValue(GetAddrTimeout) == -885
  {
  }

  /** The four caller-supplied parameters: node, service, hints and the result slot. */
  datatype Params = Params(node: Ptr, service: Ptr, hints: Ptr, res: Ptr)

  /** All four parameters NULL, as the worker's locals start out. */
  const NullParams: Params := Params(Null, Null, Null, Null)

  /** One entry of the registry. */
  datatype DnsItem = DnsItem(
    threadid: Tid,
    node: Ptr,
    service: Ptr,
    hints: Ptr,
    res: Ptr,
    errorCode: int,
    status: Status)

  /** The parameter part of an item. */
  function ParamsOf(item: DnsItem): Params
  {
    Params(item.node, item.service, item.hints, item.res)
  }

  /**
   * A default-constructed item with the given thread id and parameters: the
   * constructor leaves the error code at 0 and the status at `NotBegin`.
   */
  function NewItem(tid: Tid, p: Params): (item: DnsItem)
    ensures item.threadid == tid && ParamsOf(item) == p
    ensures item.errorCode == 0 && item.status == NotBegin
  {
    DnsItem(tid, p.node, p.service, p.hints, p.res, 0, NotBegin)
  }

  /**
   * Pointer identity of the four parameters. Two items compare equal exactly
   * when they are the same record up to thread id, error code and status.
   */
  function EqualParameter(a: DnsItem, b: DnsItem): (r: bool)
    ensures r <==> a.(threadid := b.threadid, errorCode := b.errorCode, status := b.status) == b
    ensures r <==> ParamsOf(a) == ParamsOf(b)
  {
    b.node == a.node
    && b.service == a.service
    && b.hints == a.hints
    && b.res == a.res
  }
}

=== FILE: invariants.dfy ===
/**
 * The registry invariant `Registry.Valid` holds between locked regions:
 * every step keeps it, registration given a fresh thread id.
 */
module Invariants {
  import opened DnsItems
  import opened Registry
  import opened Worker
  import opened Coordinator

  /** Removing the first match keeps the invariant and drops that thread id. */
  lemma RemoveFirstPreservesValid(reg: seq<DnsItem>, tid: Tid)
    requires Valid(reg)
    ensures Valid(RemoveFirst(reg, tid))
    ensures Tids(RemoveFirst(reg, tid)) == Tids(reg) - {tid}
  {
    FindAbsent(reg, tid);
    if Find(reg, tid) < |reg| {
      EraseFoundIsRemoveFirst(reg, tid);
      ErasePreservesValid(reg, Find(reg, tid));
    } else {
      RemoveFirstAbsent(reg, tid);
    }
  }

  /** Registering under a fresh thread id keeps the thread ids distinct. */
  lemma RegisterPreservesValid(reg: seq<DnsItem>, tid: Tid, p: Params)
    requires Valid(reg) && tid !in Tids(reg)
    ensures Valid(Register(reg, tid, p))
  {
    var r := Register(reg, tid, p);
    forall j, k | 0 <= j < k < |r|
      ensures r[j].threadid != r[k].threadid
    {
      if k == |reg| {
        assert r[j] == reg[j];
        assert reg[j].threadid in Tids(reg);
      } else {
        assert r[j] == reg[j] && r[k] == reg[k];
      }
    }
    assert forall j :: 0 <= j < |reg| ==> r[j] == reg[j];
  }

  /** A wake-up keeps the invariant: it either changes nothing or erases one item. */
  lemma WakePreservesValid(reg: seq<DnsItem>, me: DnsItem, timedOut: bool)
    requires Valid(reg)
    ensures Valid(Wake(reg, me, timedOut).reg)
  {
    RemoveFirstPreservesValid(reg, me.threadid);
  }

  /**
   * On a valid registry, a wake-up returns 0 exactly when the coordinator's
   * own item is present, the wait did not time out, the worker recorded
   * success and the stored parameters are the coordinator's own.
   */
  lemma WakeSucceedsIff(reg: seq<DnsItem>, me: DnsItem, timedOut: bool)
    requires Valid(reg)
    ensures var i := Find(reg, me.threadid);
      Wake(reg, me, timedOut).outcome == Return(Success)
      <==> i < |reg| && !timedOut && reg[i].status == Suc && EqualParameter(reg[i], me)
  {
    var i := Find(reg, me.threadid);
    FindAbsent(reg, me.threadid);
    if i < |reg| {
      FindIsFirstMatch(reg, i, me.threadid);
    }
  }

  /**
   * On a valid registry, the caller's timeout flag is set exactly when the
   * wait timed out while the coordinator's item was still registered.
   */
  lemma WakeSetsTimeoutIff(reg: seq<DnsItem>, me: DnsItem, timedOut: bool)
    requires Valid(reg)
    ensures Wake(reg, me, timedOut).setsTimeout <==> timedOut && me.threadid in Tids(reg)
  {
    var i := Find(reg, me.threadid);
    FindAbsent(reg, me.threadid);
    if i < |reg| {
      FindIsFirstMatch(reg, i, me.threadid);
    }
  }

  /**
   * The second region of a worker with a different thread id never changes
   * what this coordinator's wake-up returns or whether it sets the flag.
   */
  lemma OtherWorkerDoesNotAffectWake(reg: seq<DnsItem>, me: DnsItem, other: Tid, error: int, timedOut: bool)
    requires other != me.threadid
    ensures Wake(End(reg, other, error), me, timedOut).outcome == Wake(reg, me, timedOut).outcome
    ensures Wake(End(reg, other, error), me, timedOut).setsTimeout == Wake(reg, me, timedOut).setsTimeout
  {
    var e := End(reg, other, error);
    FindSameTids(reg, e, me.threadid);
    FindAbsent(reg, me.threadid);
    FindAbsent(e, me.threadid);
    var i := Find(reg, me.threadid);
    if i < |reg| {
      FindIsFirstMatch(reg, i, me.threadid);
      FindIsFirstMatch(e, i, me.threadid);
      assert e[i] == reg[i];
    }
  }
}

=== FILE: registry.dfy ===
/**
 * The process-wide registry `sg_dnsitem_vec`: a vector of items searched
 * linearly by thread id. Every access happens under one mutex, so the
 * registry is a plain immutable sequence here and each locked region is a
 * function from one sequence to the next.
 */
module Registry {
  import opened DnsItems

  /**
   * The iterator loops that stop at the first item with thread id `tid`:
   * the index of that item, or `|reg|` (the end iterator) when there is none.
   */
  function Find(reg: seq<DnsItem>, tid: Tid): (i: nat)
    ensures i <= |reg|
    ensures i < |reg| ==> reg[i].threadid == tid
    ensures forall j :: 0 <= j < i ==> reg[j].threadid != tid
  {
    if |reg| == 0 then 0
    else if reg[0].threadid == tid then 0
    else 1 + Find(reg[1..], tid)
  }

  /** Item `j` is the first one in the registry with thread id `tid`. */
  predicate FirstMatch(reg: seq<DnsItem>, j: int, tid: Tid)
  {
    && 0 <= j < |reg|
    && reg[j].threadid == tid
    && forall k :: 0 <= k < j ==> reg[k].threadid != tid
  }

  /** `Find` reports exactly the first match. */
  lemma FindIsFirstMatch(reg: seq<DnsItem>, j: int, tid: Tid)
    ensures FirstMatch(reg, j, tid) <==> j == Find(reg, tid) < |reg|
  {
  }

  /** `vector::erase` at position `i`: the others keep their relative order. */
  function Erase(reg: seq<DnsItem>, i: nat): (r: seq<DnsItem>)
    requires i < |reg|
    ensures |r| == |reg| - 1
    ensures forall j :: 0 <= j < i ==> r[j] == reg[j]
    ensures forall j :: i <= j < |r| ==> r[j] == reg[j + 1]
    ensures multiset(r) + multiset{reg[i]} == multiset(reg)
  {
    assert reg == reg[..i] + [reg[i]] + reg[i + 1..];
    reg[..i] + reg[i + 1..]
  }

  /** Reference definition: drop the first item with thread id `tid`, if any. */
  function RemoveFirst(reg: seq<DnsItem>, tid: Tid): seq<DnsItem>
  {
    if |reg| == 0 then []
    else if reg[0].threadid == tid then reg[1..]
    else [reg[0]] + RemoveFirst(reg[1..], tid)
  }

  /** Erasing at the position `Find` reports is removing the first match. */
  lemma {:induction false} EraseFoundIsRemoveFirst(reg: seq<DnsItem>, tid: Tid)
    requires Find(reg, tid) < |reg|
    ensures Erase(reg, Find(reg, tid)) == RemoveFirst(reg, tid)
  {
    if reg[0].threadid != tid {
      EraseFoundIsRemoveFirst(reg[1..], tid);
      assert Erase(reg, Find(reg, tid)) == [reg[0]] + Erase(reg[1..], Find(reg[1..], tid));
    }
  }

  /** When no item matches, removing the first match changes nothing. */
  lemma {:induction false} RemoveFirstAbsent(reg: seq<DnsItem>, tid: Tid)
    requires Find(reg, tid) == |reg|
    ensures RemoveFirst(reg, tid) == reg
  {
    if |reg| > 0 {
      RemoveFirstAbsent(reg[1..], tid);
      assert [reg[0]] + reg[1..] == reg;
    }
  }

  /** The thread ids present in the registry. */
  function Tids(reg: seq<DnsItem>): set<Tid>
  {
    set j | 0 <= j < |reg| :: reg[j].threadid
  }

  /** At most one item per thread id. */
  predicate DistinctTids(reg: seq<DnsItem>)
  {
    forall j, k :: 0 <= j < k < |reg| ==> reg[j].threadid != reg[k].threadid
  }

  /**
   * The registry invariant kept between locked regions: thread ids are
   * distinct, no item is left in `Timeout` (the region that writes it also
   * erases it), and a failed item carries a non-zero resolver error.
   */
  predicate Valid(reg: seq<DnsItem>)
  {
    && DistinctTids(reg)
    && (forall j :: 0 <= j < |reg| ==> reg[j].status != Timeout)
    && (forall j :: 0 <= j < |reg| ==> reg[j].status == Fail ==> reg[j].errorCode != 0)
  }

  /** `Find` answers "not found" exactly when the thread id is absent. */
  lemma FindAbsent(reg: seq<DnsItem>, tid: Tid)
    ensures Find(reg, tid) == |reg| <==> tid !in Tids(reg)
  {
    if Find(reg, tid) < |reg| {
      assert reg[Find(reg, tid)].threadid in Tids(reg);
    }
  }

  /** With distinct thread ids, the first match is the only match. */
  lemma FindUnique(reg: seq<DnsItem>, k: nat)
    requires DistinctTids(reg) && k < |reg|
    ensures Find(reg, reg[k].threadid) == k
  {
  }

  /** `Find` looks only at thread ids. */
  lemma FindSameTids(a: seq<DnsItem>, b: seq<DnsItem>, tid: Tid)
    requires |a| == |b|
    requires forall j :: 0 <= j < |a| ==> a[j].threadid == b[j].threadid
    ensures Find(a, tid) == Find(b, tid)
  {
  }

  /** Removing one item keeps a valid registry valid and drops exactly its thread id. */
  lemma ErasePreservesValid(reg: seq<DnsItem>, i: nat)
    requires Valid(reg) && i < |reg|
    ensures Valid(Erase(reg, i))
    ensures Tids(Erase(reg, i)) == Tids(reg) - {reg[i].threadid}
  {
    var r := Erase(reg, i);
    forall t | t in Tids(reg) - {reg[i].threadid}
      ensures t in Tids(r)
    {
      var j :| 0 <= j < |reg| && reg[j].threadid == t;
      if j < i {
        assert r[j].threadid == t;
      } else {
        assert r[j - 1].threadid == t;
      }
    }
  }
}

=== FILE: scenarios.dfy ===
/**
 * Whole requests, composed from the locked regions in an order the lock
 * permits. The coordinator registers before the worker's first region, so
 * the worker finds its item there unless a wake-up of its coordinator has
 * already erased it. Unless stated otherwise, each lemma starts from any
 * registry and a new thread id that is not in it.
 */
module Scenarios {
  import opened DnsItems
  import opened Registry
  import opened Worker
  import opened Coordinator

  /** After registration, the new item is the first (and only) match for its thread id. */
  lemma {:induction false} RegisteredIsLast(reg: seq<DnsItem>, tid: Tid, p: Params)
    requires tid !in Tids(reg)
    ensures FirstMatch(Register(reg, tid, p), |reg|, tid)
  {
    var r := Register(reg, tid, p);
    forall k | 0 <= k < |reg| ensures r[k].threadid != tid {
      assert r[k] == reg[k];
      assert reg[k].threadid in Tids(reg);
    }
  }

  /** Erasing the last item, when it is the first match, gives back the prefix. */
  lemma {:induction false} RemoveLastMatch(reg: seq<DnsItem>, tid: Tid)
    requires |reg| > 0 && FirstMatch(reg, |reg| - 1, tid)
    ensures RemoveFirst(reg, tid) == reg[..|reg| - 1]
  {
    FindIsFirstMatch(reg, |reg| - 1, tid);
    EraseFoundIsRemoveFirst(reg, tid);
  }

  /**
   * Registration, the worker's first region (which hands it the caller's
   * parameters) and its second region with resolver outcome `error`,
   * followed by a wake-up whose wait did not time out: the call returns 0
   * on success or the resolver's error verbatim, does not set the timeout
   * flag, and leaves the registry as it found it.
   */
  lemma {:induction false} ResolvedBeforeTimeout(reg: seq<DnsItem>, tid: Tid, p: Params, error: int)
    requires tid !in Tids(reg)
    ensures var s := Start(reg, 0, tid, p);
      && s.Started?
      && Begin(s.reg, tid).params == p
      && Wake(End(Begin(s.reg, tid).reg, tid, error), s.item, false)
         == WakeResult(reg, Return(if error == 0 then Success else error), false)
  {
    var s := Start(reg, 0, tid, p);
    var n := |reg|;
    RegisteredIsLast(reg, tid, p);
    var b := Begin(s.reg, tid);
    assert b.reg[n] == s.item.(status := Doing);
    assert FirstMatch(b.reg, n, tid);
    var e := End(b.reg, tid, error);
    assert FirstMatch(e, n, tid);
    assert e[..n] == reg by {
      assert forall j :: 0 <= j < n ==> e[j] == b.reg[j] == s.reg[j] == reg[j];
    }
    RemoveLastMatch(e, tid);
    if error == 0 {
      assert e[n] == s.item.(status := Suc);
    } else {
      assert e[n] == s.item.(errorCode := error, status := Fail);
    }
  }

  /**
   * A wake-up while the worker is still resolving (a spurious or unrelated
   * notification) neither returns nor changes anything.
   */
  lemma {:induction false} WakeWhileRunning(reg: seq<DnsItem>, tid: Tid, p: Params)
    requires tid !in Tids(reg)
    ensures var s := Start(reg, 0, tid, p);
      && s.Started?
      && Wake(Begin(s.reg, tid).reg, s.item, false) == WakeResult(Begin(s.reg, tid).reg, Continue, false)
  {
    var s := Start(reg, 0, tid, p);
    RegisteredIsLast(reg, tid, p);
    var b := Begin(s.reg, tid);
    assert FirstMatch(b.reg, |reg|, tid);
  }

  /**
   * A timed-out wait while the worker is resolving returns the timeout code,
   * sets the flag and erases the item; the worker's later second region then
   * finds nothing and leaves the registry alone, whatever its outcome.
   */
  lemma {:induction false} TimeoutThenLateResult(reg: seq<DnsItem>, tid: Tid, p: Params, error: int)
    requires tid !in Tids(reg)
    ensures var s := Start(reg, 0, tid, p);
      && s.Started?
      && Wake(Begin(s.reg, tid).reg, s.item, true) == WakeResult(reg, Return(RetCodeValue(GetAddrTimeout)), true)
      && End(reg, tid, error) == reg
  {
    var s := Start(reg, 0, tid, p);
    var n := |reg|;
    RegisteredIsLast(reg, tid, p);
    var b := Begin(s.reg, tid);
    assert FirstMatch(b.reg, n, tid);
    assert b.reg[..n] == reg by {
      assert forall j :: 0 <= j < n ==> b.reg[j] == s.reg[j] == reg[j];
    }
    RemoveLastMatch(b.reg, tid);
  }

  /**
   * When the wait times out after the worker has already recorded success,
   * the overwrite of the status wins: the call reports a timeout and the
   * success is dropped with the item.
   */
  lemma {:induction false} TimeoutOverridesSuccess(reg: seq<DnsItem>, tid: Tid, p: Params)
    requires tid !in Tids(reg)
    ensures var s := Start(reg, 0, tid, p);
      && s.Started?
      && Wake(End(Begin(s.reg, tid).reg, tid, 0), s.item, true)
         == WakeResult(reg, Return(RetCodeValue(GetAddrTimeout)), true)
  {
    var s := Start(reg, 0, tid, p);
    var n := |reg|;
    RegisteredIsLast(reg, tid, p);
    var b := Begin(s.reg, tid);
    assert FirstMatch(b.reg, n, tid);
    var e := End(b.reg, tid, 0);
    assert FirstMatch(e, n, tid);
    assert e[..n] == reg by {
      assert forall j :: 0 <= j < n ==> e[j] == b.reg[j] == s.reg[j] == reg[j];
    }
    RemoveLastMatch(e, tid);
  }

  /**
   * A wake-up before the worker's first region sees `NotBegin`, which no
   * case expects: the item is erased and the call reports it as not found.
   */
  lemma {:induction false} WakeBeforeWorkerBegins(reg: seq<DnsItem>, tid: Tid, p: Params)
    requires tid !in Tids(reg)
    ensures var s := Start(reg, 0, tid, p);
      && s.Started?
      && Wake(s.reg, s.item, false) == WakeResult(reg, Return(RetCodeValue(DnsItemNotFound)), false)
  {
    var s := Start(reg, 0, tid, p);
    RegisteredIsLast(reg, tid, p);
    RemoveLastMatch(s.reg, tid);
    assert s.reg[..|reg|] == reg;
  }

  /**
   * A failed thread start returns the same integer as a successful
   * resolution, so the caller cannot tell the two apart by the return code.
   */
  lemma StartFailureLooksLikeSuccess(reg: seq<DnsItem>, startRet: int, tid: Tid, p: Params)
    requires startRet != 0 && tid !in Tids(reg)
    ensures Start(reg, startRet, tid, p).code
         == Wake(End(Begin(Start(reg, 0, tid, p).reg, tid).reg, tid, 0), NewItem(tid, p), false).outcome.code
  {
    ResolvedBeforeTimeout(reg, tid, p, 0);
  }

  /**
   * Registration does not check that the new thread id is absent, and an
   * older item can still hold it: a finished request's item until its
   * coordinator's next locked region, or a mismatched item for good. That
   * older item `j` stays the first match, so the new worker takes its
   * parameters. A wake-up of the new coordinator without a timeout before
   * the new worker's first region acts on the older item's status: a stale
   * failure hands over the older error, a stale success with equal pointers
   * returns 0 and one with other pointers returns the mismatch code. After
   * that region the older item is `Doing` and the wake-up continues.
   */
  lemma ReusedThreadIdTakesFirstItem(reg: seq<DnsItem>, tid: Tid, p: Params, j: nat)
    requires FirstMatch(reg, j, tid)
    ensures FirstMatch(Register(reg, tid, p), j, tid)
    ensures Begin(Register(reg, tid, p), tid).params == ParamsOf(reg[j])
    ensures reg[j].status == Fail ==>
      Wake(Register(reg, tid, p), NewItem(tid, p), false)
      == WakeResult(RemoveFirst(Register(reg, tid, p), tid), Return(reg[j].errorCode), false)
    ensures reg[j].status == Suc && ParamsOf(reg[j]) == p ==>
      Wake(Register(reg, tid, p), NewItem(tid, p), false)
      == WakeResult(RemoveFirst(Register(reg, tid, p), tid), Return(Success), false)
    ensures reg[j].status == Suc && ParamsOf(reg[j]) != p ==>
      Wake(Register(reg, tid, p), NewItem(tid, p), false)
      == WakeResult(Register(reg, tid, p), Return(RetCodeValue(ParamNotMatch)), false)
    ensures Wake(Begin(Register(reg, tid, p), tid).reg, NewItem(tid, p), false)
      == WakeResult(Begin(Register(reg, tid, p), tid).reg, Continue, false)
  {
    var r := Register(reg, tid, p);
    assert forall k :: 0 <= k <= j ==> r[k] == reg[k];
    var b := Begin(r, tid).reg;
    assert FirstMatch(b, j, tid);
  }

  /**
   * Notifications are process-wide. If another request's worker finishes
   * after this request registered but before this request's worker took
   * the lock, the coordinator wakes on that unrelated signal, finds its item
   * still `NotBegin`, erases it and returns -886 without any timeout.
   */
  lemma {:induction false} UnrelatedSignalBeforeBegin(reg: seq<DnsItem>, other: Tid, q: Params, tid: Tid, p: Params, error: int)
    requires other !in Tids(reg) && tid !in Tids(reg) && tid != other
    ensures var b := Begin(Register(reg, other, q), other).reg;
      var s := Start(b, 0, tid, p);
      && s.Started?
      && Wake(End(s.reg, other, error), s.item, false).outcome == Return(RetCodeValue(DnsItemNotFound))
  {
    RegisteredIsLast(reg, other, q);
    var b := Begin(Register(reg, other, q), other).reg;
    assert Tids(b) == Tids(reg) + {other} by {
      assert forall k :: 0 <= k < |b| ==> b[k].threadid == Register(reg, other, q)[k].threadid;
    }
    RegisteredIsLast(b, tid, p);
    var s := Start(b, 0, tid, p);
    var e := End(s.reg, other, error);
    FindSameTids(s.reg, e, tid);
    FindIsFirstMatch(s.reg, |b|, tid);
    assert FirstMatch(e, |b|, tid);
  }

  /**
   * A first wait that times out before the worker's first region (a zero
   * timeout, say) erases the item, so the worker then finds nothing and
   * resolves with four NULL parameters, leaving the registry alone.
   */
  lemma {:induction false} EarlyTimeoutLeavesWorkerNothing(reg: seq<DnsItem>, tid: Tid, p: Params)
    requires tid !in Tids(reg)
    ensures var s := Start(reg, 0, tid, p);
      && s.Started?
      && Wake(s.reg, s.item, true) == WakeResult(reg, Return(RetCodeValue(GetAddrTimeout)), true)
      && Begin(Wake(s.reg, s.item, true).reg, tid) == BeginResult(reg, NullParams)
  {
    var s := Start(reg, 0, tid, p);
    RegisteredIsLast(reg, tid, p);
    RemoveLastMatch(s.reg, tid);
    assert s.reg[..|reg|] == reg;
  }
}

=== FILE: timing.dfy ===
/**
 * The coordinator's deadline arithmetic on `uint64_t` milliseconds. The
 * clock reading is a parameter: the model never consults a clock.
 */
module Timing {

  const TwoTo64: nat := 0x1_0000_0000_0000_0000

  predicate IsU64(x: int)
  {
    0 <= x < TwoTo64
  }

  /**
   * The absolute deadline `now + timeout`, computed in 64-bit unsigned
   * arithmetic and therefore wrapping past 2^64 - 1.
   */
  function Deadline(now: nat, timeout: nat): (end: nat)
    requires IsU64(now) && IsU64(timeout)
    ensures IsU64(end)
    ensures now + timeout < TwoTo64 ==> end == now + timeout
    ensures now + timeout >= TwoTo64 ==> end + TwoTo64 == now + timeout
  {
    (now + timeout) % TwoTo64
  }

  /**
   * The time still to wait at clock reading `cur`: the guarded subtraction
   * never goes below zero, so no unsigned underflow can occur.
   */
  function RemainingWait(end: nat, cur: nat): (w: nat)
    ensures end > cur ==> cur + w == end
    ensures end <= cur ==> w == 0
    ensures w <= end
    ensures IsU64(end) ==> IsU64(w)
  {
    if end > cur then end - cur else 0
  }

  /**
   * On every re-computation with a later clock reading the wait shrinks by
   * the time that has passed, until it reaches zero and stays there.
   */
  lemma RemainingWaitShrinks(end: nat, c1: nat, c2: nat)
    requires c1 <= c2
    ensures RemainingWait(end, c2) <= RemainingWait(end, c1)
    ensures c2 <= end ==> RemainingWait(end, c1) - RemainingWait(end, c2) == c2 - c1
    ensures c2 >= end ==> RemainingWait(end, c2) == 0
  {
  }

  /** Without wrap-around, the first wait is the whole timeout. */
  lemma FirstWaitIsTimeout(now: nat, timeout: nat)
    requires IsU64(now) && IsU64(timeout) && now + timeout < TwoTo64
    ensures RemainingWait(Deadline(now, timeout), now) == timeout
  {
  }

  /**
   * With wrap-around, the deadline lies before `now`, so every wait from
   * `now` on is zero: a timeout close to 2^64 expires at once.
   */
  lemma WrappedDeadlineWaitsZero(now: nat, timeout: nat, cur: nat)
    requires IsU64(now) && IsU64(timeout) && now + timeout >= TwoTo64
    requires now <= cur
    ensures Deadline(now, timeout) < now
    ensures RemainingWait(Deadline(now, timeout), cur) == 0
  {
  }
}

=== FILE: wait_loop.dfy ===
/**
 * The coordinator's `while (true)` loop. What happens between two wake-ups
 * (other threads' locked regions, the passage of time, whether the wait
 * timed out) is supplied as a sequence of observations, one per wake-up:
 * the clock reading before the wait, the registry the coordinator finds
 * after re-acquiring the lock, and the wait's outcome.
 */
module WaitLoop {
  import opened DnsItems
  import opened Coordinator
  import opened Timing

  datatype Observation = Observation(clock: nat, reg: seq<DnsItem>, timedOut: bool)

  /** How the loop ended: a return from some wake-up, or still waiting when the observations ran out. */
  datatype LoopResult =
    | Returned(code: int, setsTimeout: bool, reg: seq<DnsItem>)
    | StillWaiting

  /** The clock never runs backwards across the observations. */
  predicate ClockMonotone(obs: seq<Observation>)
  {
    forall m, k :: 0 <= m < k < |obs| ==> obs[m].clock <= obs[k].clock
  }

  /**
   * Run the loop against `obs`. Before each wait the remaining time to `end`
   * is recomputed and recorded in `waits`. The loop leaves only through a
   * return of the wake-up step, so the statement after it (returning the
   * internal-state error) is never reached.
   */
  method Run(me: DnsItem, end: nat, obs: seq<Observation>) returns (r: LoopResult, waits: seq<nat>)
    ensures 0 < |waits| <= |obs| || (|obs| == 0 && waits == [])
    ensures forall k :: 0 <= k < |waits| ==> waits[k] == RemainingWait(end, obs[k].clock)
    // Every wake-up before the last one observed continued the loop.
    ensures forall k :: 0 <= k < |waits| - 1 ==> Wake(obs[k].reg, me, obs[k].timedOut).outcome == Continue
    // The loop returns exactly what the last observed wake-up returned.
    ensures r.Returned? ==> 0 < |waits| && Wake(obs[|waits| - 1].reg, me, obs[|waits| - 1].timedOut) == WakeResult(r.reg, Return(r.code), r.setsTimeout)
    ensures r.StillWaiting? ==> |waits| == |obs|
    ensures r.StillWaiting? ==> forall k :: 0 <= k < |obs| ==> Wake(obs[k].reg, me, obs[k].timedOut).outcome == Continue
    // With a monotone clock the wait never grows from one wake-up to the next.
    ensures ClockMonotone(obs) ==> forall m, k :: 0 <= m < k < |waits| ==> waits[k] <= waits[m]
  {
    waits := [];
    r := StillWaiting;
    var k := 0;
    while k < |obs| && r.StillWaiting?
      invariant k <= |obs| && |waits| == k
      invariant forall j :: 0 <= j < k ==> waits[j] == RemainingWait(end, obs[j].clock)
      invariant forall j :: 0 <= j < k - 1 ==> Wake(obs[j].reg, me, obs[j].timedOut).outcome == Continue
      invariant r.StillWaiting? ==> forall j :: 0 <= j < k ==> Wake(obs[j].reg, me, obs[j].timedOut).outcome == Continue
      invariant r.Returned? ==> 0 < k && Wake(obs[k - 1].reg, me, obs[k - 1].timedOut) == WakeResult(r.reg, Return(r.code), r.setsTimeout)
    {
      waits := waits + [RemainingWait(end, obs[k].clock)];
      var w := Wake(obs[k].reg, me, obs[k].timedOut);
      if w.outcome.Return? {
        r := Returned(w.outcome.code, w.setsTimeout, w.reg);
      }
      k := k + 1;
    }
  }

  /**
   * The whole entry point: start the worker and register the request, fix
   * the deadline from the clock reading `now`, then run the wait loop for
   * the coordinator's own item. A failed start returns 0 before any wait.
   * After a start, the loop sees only the registries in `obs`: other threads'
   * regions run between registration and the first wake-up, so nothing ties
   * the first observation to the registry just after registration.
   */
  method GetAddrInfoWithTimeout(reg: seq<DnsItem>, startRet: int, tid: Tid, p: Params,
                                now: nat, timeout: nat, obs: seq<Observation>)
    returns (r: LoopResult, waits: seq<nat>)
    requires IsU64(now) && IsU64(timeout)
    ensures startRet != 0 ==> r == Returned(Success, false, reg) && waits == []
    ensures |waits| <= |obs|
    ensures startRet == 0 ==> forall k :: 0 <= k < |waits| ==>
      waits[k] == RemainingWait(Deadline(now, timeout), obs[k].clock)
    ensures startRet == 0 && r.Returned? ==>
      (0 < |waits|
       && Wake(obs[|waits| - 1].reg, NewItem(tid, p), obs[|waits| - 1].timedOut)
          == WakeResult(r.reg, Return(r.code), r.setsTimeout))
    // Read immediately, the clock gives a first wait of the whole timeout, barring wrap-around.
    ensures startRet == 0 && 0 < |obs| && obs[0].clock == now && now + timeout < TwoTo64 ==>
      0 < |waits| && waits[0] == timeout
  {
    var s := Start(reg, startRet, tid, p);
    if s.StartFailed? {
      return Returned(s.code, false, reg), [];
    }
    var end := Deadline(now, timeout);
    r, waits := Run(s.item, end, obs);
  }
}

=== FILE: worker.dfy ===
/**
 * The two locked regions of the worker thread. Between them the worker
 * calls the blocking resolver without holding the lock; that call is not
 * modelled, and its outcome enters the second region as an error code
 * (0 for success).
 */
module Worker {
  import opened DnsItems
  import opened Registry

  /** What the first region leaves behind: the new registry and the parameters read. */
  datatype BeginResult = BeginResult(reg: seq<DnsItem>, params: Params)

  /**
   * First region: find the worker's own item, copy out its parameters and
   * mark it `Doing`. With no item, the registry is untouched and the
   * parameters stay NULL.
   */
  function Begin(reg: seq<DnsItem>, tid: Tid): (r: BeginResult)
    ensures |r.reg| == |reg|
    ensures forall j :: 0 <= j < |reg| && j != Find(reg, tid) ==> r.reg[j] == reg[j]
    ensures forall j :: 0 <= j < |reg| ==> r.reg[j].threadid == reg[j].threadid
    ensures tid !in Tids(reg) ==> r.reg == reg && r.params == NullParams
    ensures forall j :: FirstMatch(reg, j, tid) ==>
      && r.params == ParamsOf(reg[j])
      && r.reg[j] == reg[j].(status := Doing)
  {
    FindAbsent(reg, tid);
    var i := Find(reg, tid);
    if i < |reg| then
      BeginResult(reg[i := reg[i].(status := Doing)], ParamsOf(reg[i]))
    else
      BeginResult(reg, NullParams)
  }

  /**
   * Second region, after the resolver returned `error`. A failure is
   * recorded whatever the item's status; a success is recorded only over
   * `Doing`. An item already erased by its coordinator leaves the registry
   * as it is and the result is dropped.
   */
  function End(reg: seq<DnsItem>, tid: Tid, error: int): (r: seq<DnsItem>)
    ensures |r| == |reg|
    ensures forall j :: 0 <= j < |reg| && j != Find(reg, tid) ==> r[j] == reg[j]
    ensures forall j :: 0 <= j < |reg| ==> r[j].threadid == reg[j].threadid
    ensures tid !in Tids(reg) ==> r == reg
    ensures forall j :: FirstMatch(reg, j, tid) ==>
      && (error != 0 ==> r[j] == reg[j].(errorCode := error, status := Fail))
      && (error == 0 && reg[j].status == Doing ==> r[j] == reg[j].(status := Suc))
      && (error == 0 && reg[j].status != Doing ==> r == reg)
  {
    FindAbsent(reg, tid);
    var i := Find(reg, tid);
    if i == |reg| then reg
    else if error != 0 then reg[i := reg[i].(errorCode := error, status := Fail)]
    else if reg[i].status == Doing then reg[i := reg[i].(status := Suc)]
    else reg
  }

  lemma BeginPreservesValid(reg: seq<DnsItem>, tid: Tid)
    requires Valid(reg)
    ensures Valid(Begin(reg, tid).reg)
    ensures Tids(Begin(reg, tid).reg) == Tids(reg)
  {
    var r := Begin(reg, tid).reg;
    assert forall j :: 0 <= j < |r| ==> r[j].status == reg[j].status || r[j].status == Doing;
  }

  lemma EndPreservesValid(reg: seq<DnsItem>, tid: Tid, error: int)
    requires Valid(reg)
    ensures Valid(End(reg, tid, error))
    ensures Tids(End(reg, tid, error)) == Tids(reg)
  {
  }
}
